=== FILE: README.md ===
# Instagram extractors: a Dafny model

This project models the extraction core of the `insta-etl` pipeline. It
covers the four classes that turn responses of the RapidAPI Instagram
scraper into records:

- `PostInfo` projects one post-detail response. The result is a flat post record with:
  - the caption's hashtags;
  - the tagged users;
  - the content count.
  For a carousel it also builds an "extended" record with one entry per child. That record falls back from video fields to image fields.
- `UserInfo` covers two things:
  - the allow-listed profile (seven fields of `data['user']`);
  - the followers / following lists. These are walked page by page through `next_max_id`.
- `PostLikesComments` walks two paginated resources:
  - the likers of a post, through `has_next_page` / `end_cursor`;
  - the comments of a post, through `next_min_id`, else `end_cursor`, else stop.
- `InstagramPipeline.extract_user_profile` is the older profile extractor. Its eight-key record renames three fields.

## How the model is built

- **JSON.** A response is a `Json` value (`json.dfy`). Dicts are maps.
- **Python operations.** The model states the Python operations the code applies to JSON values:
  - subscripting by key and by index;
  - `len`;
  - iteration inside a comprehension;
  - truthiness;
  - `str.split(" ")`;
  - `str()` in an f-string.
- **Errors.** Every exception these operations raise becomes an `Error` value (`wrappers.dfy`), and each operation returns a `Result`. The error kinds `KeyError`, `IndexError`, `TypeError` and `AttributeError` are kept apart. The source has four `except KeyError` handlers, in three methods, and any other kind passes through them.
- **The HTTP connector.** It is replaced by a script: request `k` is answered by `script[k]` (`transport.dfy`).
  - Every extractor returns a `Run`: its result, plus the log of requests it issued, as endpoint plus keyword parameters.
  - A loop that asks for more responses than the script holds ends with `OutOfScript`. So every run is finite, and the contracts can speak of "the loop stops at the first page without a cursor".
- **Pagination.** The three loops share one generic cursor-following loop (`paging.dfy`).
  - A `Pager` says how a page's records are read, where its cursor is, and which request a cursor becomes.
  - `Paging.Paginate` lists the records of every page. Followers return all of them. Likes and comments keep only the last, because their loops overwrite their lists on every page.

### The model follows the code as written

Several behaviours of the code differ from what a reader might expect. The model states them:

- **Followers / following.** The result is a list with one element per page. Each element is an unconsumed generator `(user['pk'] for user in response['users'])`, so the ids are neither flattened nor de-duplicated.
  - Only `response['users']` and `iter()` of it are evaluated while the loop runs.
  - A missing `pk` raises only when the generator is consumed (`UserInfo.Drain`).
  - A cursor equal to `""` drops `next_max_id` from the follow-up request.
- **Likes and comments** return the last fetched page only.
- **Comment follow-up requests** call `__helper(shortcode, next_page)`, which fills the helper's `url_extendor` and `post_code` slots. So the follow-up request goes to the endpoint named by the shortcode, with the cursor sent as its `shortcode` parameter and no `end_cursor`.
- **Carousel fallback.** The `try`/`except KeyError` of the extended record is decided once for the whole carousel. If any child lacks a video field, every child gets view count 0 and its `display_url`.
- **Tagged users.** `__helper_user_tag` tests `len` of the tagged-user object itself, not of its edge list. So an object with an empty `edges` list gives `(True, [])`.
- **Behaviours without code.** The source has no code for these behaviours, so they have no counterpart in the model:
  - flattened follower ids;
  - a post-timeline cutoff;
  - a bounded retry on server errors;
  - flattening of comment replies;
  - skipping of non-object comment entries;
  - a batch driver or a sink.

## Model

| member | source | states |
|---|---|---|
| Json.Pluck | source/likes_comments.py:52-55 | a per-element comprehension succeeds exactly when every element has the path; the result is index-aligned with the input; a failure is the first failing element's exception |
| Format.ParseNatStr | source/post_info.py:74 | the decimal rendering `str(i)` of an index reads back as that index |
| Format.NatStrInjective | source/post_info.py:74 | distinct indices render to distinct decimal strings |
| Text.Split | source/post_info.py:41-42 | `split(" ")` yields at least one piece, and no piece contains a space |
| Text.Hashtags | source/post_info.py:41-42 | `t` is a hashtag of the caption exactly when `"#" + t` is one of its space-separated tokens; there are at most as many hashtags as tokens |
| Text.JoinSplit | source/post_info.py:41-42 | joining the pieces of `split(" ")` with single spaces restores the caption |
| Text.SplitJoin | source/post_info.py:41-42 | space-free pieces joined by single spaces split back into the same pieces |
| Text.SplitAtSpace | source/post_info.py:41-42 | splitting at a space splits each side independently and concatenates the results |
| Text.TagsAppend | source/post_info.py:41-42 | the tag filter distributes over concatenation of token lists |
| Text.HashtagsOfJoin | source/post_info.py:41-42 | the hashtags of two captions joined by a space are the hashtags of the first followed by those of the second (caption order is kept) |
| Text.TagsMembership | source/post_info.py:41-42 | a tag is in the result exactly when some kept token, minus its `#`, equals it |
| Text.TokenTagsMembership | source/post_info.py:41-42 | `t` is a kept tag of a token list exactly when `"#" + t` is one of the tokens |
| Text.TagsEmpty | source/post_info.py:41-42 | no hashtags exactly when no token starts with `#` |
| Text.SplitChars | source/post_info.py:41-42 | every character of every piece occurs in the caption |
| Text.NoHashNoHashtags | source/post_info.py:41-42 | a caption without `#` (the empty caption among them) has no hashtags |
| Text.SplitToken | source/post_info.py:41-42 | a token without spaces splits to itself |
| Text.HashtagsOfToken | source/post_info.py:41-42 | a single token gives its text after `#` when it starts with `#`, and nothing otherwise |
| Text.HashtagsOfTaggedWords | source/post_info.py:41-42 | a caption shaped like "gm #sunrise #day1" gives exactly the two marked words, in order |
| Text.HashtagsOfEmptyCaption | source/post_info.py:41-42 | the empty caption splits to one empty token and has no hashtags |
| Text.HashtagsMarkerExamples | source/post_info.py:41-42 | only the first `#` is stripped ("##x" gives "#x"), and a bare "#" gives the empty tag |
| PostInfo.UserTag | source/post_info.py:106-119 | `(False, [])` exactly when the tagged-user value has length 0; for a non-empty value, success exactly when its edges can be iterated and every edge has `node.user.id`, and then `True` with those ids in edge order; a missing tagged-user key or a value without `len` fails |
| PostInfo.TaggedWithoutEdges | source/post_info.py:116-119 | a tagged-user object holding an empty edge list gives `(True, [])` |
| PostInfo.NumContent | source/post_info.py:94-104 | 1 when there is no sidecar key; otherwise the number of sidecar edges; a failing edges lookup is an error, and an edges value without `len` (a number, a bool, `None`) raises `TypeError` |
| PostInfo.CompositeIdIndex | source/post_info.py:74 | the digits between the brackets of `post_id[i]` read back as `i` |
| PostInfo.CompositeIdsDistinct | source/post_info.py:74 | children of one carousel get pairwise distinct composite ids |
| PostInfo.MediaFields | source/post_info.py:76-84 | all lists have one entry per child; with every video field present they are the video fields; otherwise, for dict nodes, they are views 0 and `display_url` for every child; a missing `is_video` fails either way |
| PostInfo.VideoFallsBack | source/post_info.py:76-81 | when every node is a dict and some child lacks a video field, the `try` body raises `KeyError` |
| PostInfo.Extended | source/post_info.py:63-92 | succeeds exactly when the children are found, every child has `node.id` and `MediaFields` succeeds; the extended record keeps the post id; every list has one entry per child; `post_content_id[i]` is `post_id[i]`; `content_id[i]` is child `i`'s node id; the media lists are the single choice `MediaFields` makes |
| PostInfo.Project | source/post_info.py:34-61 | the projection succeeds exactly when the response is a dict whose tagged users, content count, seven plain fields and string caption all resolve, and whose extended record resolves when the count is not 1; a successful projection copies the seven plain fields; its text is the first caption node's text; its hashtags are that text's; its tag fields and content count are those of the helpers; it has an extended record exactly when the count is not 1, with as many children as the count |
| PostInfo.ChildCountIsContentCount | source/post_info.py:73-75 | when the sidecar children can be indexed, their number is the content count |
| PostInfo.PostInfoRequest | source/post_info.py:121-130 | the request goes to the `post_info` endpoint and carries the shortcode as `shortcode` and nothing else: no `end_cursor`, no `id_user` |
| PostInfo.ExtractPostInfo | source/post_info.py:22-32 | exactly one `post_info` request with the shortcode; success exactly when a response arrives and projects |
| UserInfo.UserField | source/user_info.py:30 | `data['user'][key]` is the two-step path lookup |
| UserInfo.ProjectFields | source/user_info.py:30 | the dict comprehension succeeds exactly when every listed field exists; its keys are exactly the listed fields, and each value is copied; a failure is some field's exception |
| UserInfo.ProjectFieldsByName | source/user_info.py:30 | stated by field name: the comprehension succeeds exactly when every listed field exists, and every listed field is a key holding its copied value |
| UserInfo.AllowListProjection | source/user_info.py:30 | over the allow-list the projected keys are exactly the seven field names |
| UserInfo.ExtractUserProfile | source/user_info.py:20-30 | one `info` request with `id_user`; success exactly when the response has all seven fields; the profile has exactly those keys, each copied |
| UserInfo.UserListRequest | source/user_info.py:78-89 | `next_max_id` is sent exactly when the cursor is not `""`, and `id_user` always |
| UserInfo.MaxIdCursor | source/user_info.py:70-75 | a cursor exactly when `next_max_id` is present, and that cursor is its value; no cursor (the loop ends) exactly when the lookup raises `KeyError`; any other exception propagates |
| UserInfo.UserList | source/user_info.py:56-76 | the first request has no cursor; request `k` carries response `k-1`'s `next_max_id`; the loop stops at the first response without one; a follow-up is sent only after the previous page's `users` were read; one generator per fetched page, in order; a failing walk raises what reading the last fetched page raises, its records first and then its cursor |
| UserInfo.ExtractFollowers | source/user_info.py:32-42 | every request goes to `followers`, the first carrying only `id_user` |
| UserInfo.ExtractFollowing | source/user_info.py:44-54 | every request goes to `following`, the first carrying only `id_user` |
| UserInfo.FollowingMirrorsFollowers | source/user_info.py:32-54 | followers and following give the same result on the same responses, and their requests differ only in the endpoint |
| UserInfo.ThreePages | source/user_info.py:65-76 | three pages of which the first two carry cursors give three requests and three groups, draining to as many ids as the pages have users |
| UserInfo.PkLookupIsDeferred | source/user_info.py:68-69 | a page whose users lack `pk` still ends the loop successfully; only consuming its generator raises `KeyError` |
| LikesComments.Helper | source/likes_comments.py:67-78 | `end_cursor` is sent exactly when the cursor is not `""`, and `shortcode` always, to the given endpoint |
| LikesComments.LikesCursor | source/likes_comments.py:33-37 | a cursor exactly when `has_next_page` is truthy and `end_cursor` exists, and then it is `end_cursor`; none exactly when `has_next_page` is falsy |
| LikesComments.ExtractLikeUsers | source/likes_comments.py:20-38 | the first request is `likes` with the shortcode; each later one follows a page whose liker edges were read and carries its `end_cursor`; success ends on a page without a next page; the result is that last page's liker ids alone; a failing walk raises what reading the last fetched page raises, its liker ids first and then its cursor |
| LikesComments.LikesKeepOnlyLastPage | source/likes_comments.py:30-38 | over two pages the second request carries the first page's cursor, and only the second page's likers are returned |
| LikesComments.CommentColumns | source/likes_comments.py:52-55 | user ids and texts succeed together exactly when every comment has both; they are equally long and index-aligned with the comments |
| LikesComments.CommentsCursor | source/likes_comments.py:56-64 | `next_min_id` wins over `end_cursor`; no cursor exactly when a dict has neither key; a non-dict response raises `TypeError` |
| LikesComments.CommentsFollowUp | source/likes_comments.py:58 | a follow-up request goes to the endpoint named by the shortcode, carries the cursor as `shortcode`, and never carries `end_cursor` |
| LikesComments.ExtractComments | source/likes_comments.py:40-65 | the first request is `comments` with the shortcode; each later one follows a page whose comments were read and is the misrouted follow-up with its cursor; success ends on a dict without either cursor key; the result is that last page's columns alone; a failing walk raises what reading the last fetched page raises, its columns first and then its cursor |
| LikesComments.CommentsTwoPages | source/likes_comments.py:51-65 | over two pages the second request goes to the shortcode endpoint with the `next_min_id` as `shortcode`, and only the second page's columns are returned |
| Pipeline.Project | source/pipeline.py:27-36 | the record succeeds exactly when all seven user fields exist; it has exactly the eight keys; `user_id` is the argument; each other key holds its renamed source field |
| Pipeline.ExtractUserProfile | source/pipeline.py:17-37 | one `info` request with `id_user`; success exactly when a response arrives and projects |
| Pipeline.RenamedProfile | source/pipeline.py:29-35 | any allow-list profile of the same response is the pipeline record under the renaming, and both succeed together |
| Pipeline.AgreesWithAllowList | source/pipeline.py:25-36 | the two profile extractors send the same request, succeed on the same responses, and agree field for field under the renaming |
| Paging.Walk | source/user_info.py:67-75 | after a received page, every follow-up request is the follow of a page that carried a cursor; success ends on a page without one; the records are aligned with the pages; failure is the failing page's exception, or running out of responses |
| Paging.Paginate | source/user_info.py:65-76 | the same facts for the whole loop, starting from the first request |
| Paging.CursorRunIs | source/user_info.py:67-75 | the number of leading pages that carry a cursor is characterised by those pages continuing and the next one not |
| Paging.RequestCount | source/user_info.py:67-75 | the loop issues exactly one request more than the number of leading pages that carry a cursor |
| Paging.SucceedsIff | source/user_info.py:67-75 | the loop succeeds exactly when the first page without a cursor exists and is read without error |
| Paging.WalkRewritten | source/user_info.py:67-75 | loops that differ only in how follow-up requests are built give the same result, with the requests related pointwise |
| Paging.PaginateRewritten | source/user_info.py:65-76 | the same for the whole loop, whose first requests are related in the same way |

## Left out

- HTTP transport, API key, URL building, timeouts and `json.loads` (`source/connector.py`): replaced by the response script. A connector failure is not modelled; the only transport failure is running out of responses (`OutOfScript`).
- Logging calls in `PostInfo` have no effect on results and are left out.
- `run.py`, the tests, storage and any batch driver are outside the core.
- `source/post_info.py` imports `SourceConnector`, which `source/connector.py` does not define; the model treats the class body as if the import succeeded.
- JSON floats are not modelled: every number the extractors read is an integer.
- `requests` drops keyword parameters whose value is `None`; the request log keeps every parameter as passed.
- Format.Str renders a list or dict post id with a placeholder instead of Python's `repr`; post ids are scalars in practice.
- Json.Records reports `TypeError` for a non-empty dict iterated by a comprehension at once, without choosing which key Python would visit first; the exception kind is the same.
- Duplicate keys in a response are not modelled (a dict holds the last value, as `json.loads` does).
- PostInfo.Project states when a projection succeeds and what a successful one holds, but not which lookup fails first on a malformed response (for instance a list `owner` together with a missing `display_url`); no contract states that order.
- PostInfo.NumContent states the count for a list of edges; for a string or dict it is `len` of that value, which the contract does not spell out.
- PostInfo.MediaFields does not state the result for children whose `node` is not a dict (the `try` body then raises `TypeError`, which passes through).

=== FILE: constants.dfy ===
/** The endpoint names and the profile field list the extractors use. */
module Constants {

  const ProfileInfoEndpoint: string := "info"
  const FollowersEndpoint: string := "followers"
  const FollowingEndpoint: string := "following"
  const PostInfoEndpoint: string := "post_info"
  const LikesEndpoint: string := "likes"
  const CommentsEndpoint: string := "comments"

  /** The profile fields kept by the allow-list projection, in order. */
  const UserExtractFields: seq<string> :=
    ["username", "following_count", "follower_count", "is_private",
     "is_verified", "profile_pic_url", "media_count"]
}

=== FILE: format.dfy ===
/** Python's `str()` as an f-string applies it to the values the extractors
    format: decimal integers and the scalar JSON values. */
module Format {
  import opened Json

  predicate IsDigit(c: char)
  {
    '0' <= c <= '9'
  }

  function DigitChar(d: nat): (c: char)
    requires d < 10
    ensures IsDigit(c)
  {
    ('0' as int + d) as char
  }

  function DigitValue(c: char): (d: nat)
    requires IsDigit(c)
    ensures d < 10
  {
    c as int - '0' as int
  }

  /** `str(n)` for a non-negative integer: its decimal digits, most
      significant first, without leading zeros. */
  function NatStr(n: nat): (s: string)
    ensures |s| >= 1
    ensures forall k :: 0 <= k < |s| ==> IsDigit(s[k])
    decreases n
  {
    if n < 10 then [DigitChar(n)] else NatStr(n / 10) + [DigitChar(n % 10)]
  }

  /** The value of a string of decimal digits (the empty string reads as 0). */
  function ParseNat(s: string): nat
    requires forall k :: 0 <= k < |s| ==> IsDigit(s[k])
    decreases |s|
  {
    if |s| == 0 then 0 else ParseNat(s[..|s| - 1]) * 10 + DigitValue(s[|s| - 1])
  }

  /** Reading back the decimal rendering of a number gives the number. */
  lemma {:induction false} ParseNatStr(n: nat)
    ensures ParseNat(NatStr(n)) == n
    decreases n
  {
    var s := NatStr(n);
    if n >= 10 {
      ParseNatStr(n / 10);
      assert s[..|s| - 1] == NatStr(n / 10);
    }
  }

  /** Distinct numbers have distinct decimal renderings. */
  lemma NatStrInjective(m: nat, n: nat)
    requires NatStr(m) == NatStr(n)
    ensures m == n
  {
    ParseNatStr(m);
    ParseNatStr(n);
  }

  /** `str(i)` for any integer. */
  function IntStr(i: int): string
  {
    if i < 0 then "-" + NatStr(-i) else NatStr(i)
  }

  /** `str(j)` for a JSON value as the f-strings of the extractors see it.
      A list or dict is rendered by a fixed placeholder rather than its repr. */
  function Str(j: Json): string
  {
    match j
    case JNull => "None"
    case JBool(b) => if b then "True" else "False"
    case JInt(i) => IntStr(i)
    case JStr(s) => s
    case JArr(_) => "[...]"
    case JObj(_) => "{...}"
  }
}

=== FILE: json.dfy ===
/** JSON values as `json.loads` returns them, and the handful of Python
    operations the extractors apply to them: subscripting by key and by
    index, `len`, iteration inside a list comprehension, and truthiness. */
module Json {
  import opened Wrappers

  /** A parsed JSON document. Numbers are integers: every number the
      extractors read (ids, counts, view counts) is one. */
  datatype Json =
    | JNull
    | JBool(b: bool)
    | JInt(i: int)
    | JStr(s: string)
    | JArr(a: seq<Json>)
    | JObj(m: map<string, Json>)

  /** `j[key]` for a string key: only a dict can be subscripted by a string,
      and a dict without the key raises `KeyError`. */
  function Get(j: Json, key: string): (r: Result<Json>)
  {
    match j
    case JObj(m) => if key in m then Ok(m[key]) else Err(KeyError)
    case _ => Err(TypeError)
  }

  /** `j[k0][k1]...`: the lookups of a path in order, stopping at the first
      that raises. */
  function GetPath(j: Json, path: seq<string>): (r: Result<Json>)
    decreases |path|
  {
    if |path| == 0 then Ok(j)
    else
      var v :- Get(j, path[0]);
      GetPath(v, path[1..])
  }

  /** The one-character strings a Python `str` yields when iterated or indexed. */
  function Chars(s: string): (r: seq<Json>)
  {
    seq(|s|, k requires 0 <= k < |s| => JStr([s[k]]))
  }

  /** `j[i]` for a non-negative int index. A dict parsed from JSON has only
      string keys, so an int key raises `KeyError`. */
  function At(j: Json, i: nat): (r: Result<Json>)
  {
    match j
    case JArr(a) => if i < |a| then Ok(a[i]) else Err(IndexError)
    case JStr(s) => if i < |s| then Ok(JStr([s[i]])) else Err(IndexError)
    case JObj(_) => Err(KeyError)
    case _ => Err(TypeError)
  }

  /** `len(j)`. */
  function Len(j: Json): (r: Result<nat>)
  {
    match j
    case JStr(s) => Ok(|s|)
    case JArr(a) => Ok(|a|)
    case JObj(m) => Ok(|m|)
    case _ => Err(TypeError)
  }

  /** The elements visited by `[x[key] for x in j]` before any `x[key]` is
      evaluated. Iterating a dict or a string yields strings, and subscripting
      a string by a string key raises `TypeError`; for a non-empty dict that
      `TypeError` is reported here, which is why no key order is needed. */
  function Records(j: Json): (r: Result<seq<Json>>)
  {
    match j
    case JArr(a) => Ok(a)
    case JStr(s) => Ok(Chars(s))
    case JObj(m) => if |m| == 0 then Ok([]) else Err(TypeError)
    case _ => Err(TypeError)
  }

  /** `[j[i] for i in range(len(j))]`: like `Records`, except that a
      non-empty dict fails on `j[0]` with `KeyError`. */
  function Indexed(j: Json): (r: Result<seq<Json>>)
  {
    match j
    case JArr(a) => Ok(a)
    case JStr(s) => Ok(Chars(s))
    case JObj(m) => if |m| == 0 then Ok([]) else Err(KeyError)
    case _ => Err(TypeError)
  }

  /** `iter(j)` succeeds: lists, strings and dicts are iterable. */
  predicate Iterable(j: Json)
  {
    j.JArr? || j.JStr? || j.JObj?
  }

  /** Python truthiness of a JSON value. */
  predicate Truthy(j: Json)
  {
    match j
    case JNull => false
    case JBool(b) => b
    case JInt(i) => i != 0
    case JStr(s) => |s| > 0
    case JArr(a) => |a| > 0
    case JObj(m) => |m| > 0
  }

  /** Element `k` is where `[x[p0][p1]... for x in xs]` stops, raising `e`:
      every earlier element has the path. */
  ghost predicate FirstFailure(xs: seq<Json>, path: seq<string>, k: int, e: Error)
  {
    && 0 <= k < |xs|
    && GetPath(xs[k], path) == Err(e)
    && forall i :: 0 <= i < k ==> GetPath(xs[i], path).Ok?
  }

  /** `[x[p0][p1]... for x in xs]`: one lookup per element, in list order; the
      comprehension raises the first failing element's exception. */
  function Pluck(xs: seq<Json>, path: seq<string>): (r: Result<seq<Json>>)
    ensures r.Ok? <==> forall k :: 0 <= k < |xs| ==> GetPath(xs[k], path).Ok?
    ensures r.Ok? ==> |r.value| == |xs|
    ensures r.Ok? ==> forall k :: 0 <= k < |xs| ==> GetPath(xs[k], path) == Ok(r.value[k])
    ensures r.Err? ==> exists k :: FirstFailure(xs, path, k, r.error)
    decreases |xs|
  {
    if |xs| == 0 then Ok([])
    else
      match GetPath(xs[0], path)
      case Err(e) =>
        assert FirstFailure(xs, path, 0, e);
        Err(e)
      case Ok(v) =>
        match Pluck(xs[1..], path)
        case Err(e) =>
          FirstFailureShift(xs, path, e);
          Err(e)
        case Ok(rest) => Ok([v] + rest)
  }

  /** A failure in the tail of a list is a failure of the whole list when its
      head has the path. */
  lemma FirstFailureShift(xs: seq<Json>, path: seq<string>, e: Error)
    requires |xs| > 0 && GetPath(xs[0], path).Ok?
    requires exists k :: FirstFailure(xs[1..], path, k, e)
    ensures exists k :: FirstFailure(xs, path, k, e)
  {
    var k :| FirstFailure(xs[1..], path, k, e);
    assert FirstFailure(xs, path, k + 1, e);
  }
}

=== FILE: likes_comments.dfy ===
/** `PostLikesComments`: the users who liked a post, and the users and texts
    of its comments, each walked page by page. Both loops overwrite their
    lists on every page, so only the last fetched page is returned. */
module LikesComments {
  import opened Wrappers
  import opened Json
  import opened Transport
  import opened Constants
  import opened Paging

  /** `__helper(url_extendor, post_code, next_page="")`: a `shortcode`
      request, with `end_cursor` added exactly when `next_page` is not the
      empty string. */
  function Helper(urlExtendor: string, postCode: Json, nextPage: Json): (r: Request)
    ensures r.endpoint == urlExtendor
    ensures Sends(r, "end_cursor") <==> nextPage != JStr("")
    ensures r.params == if Sends(r, "end_cursor")
      then [Param("shortcode", postCode), Param("end_cursor", nextPage)]
      else [Param("shortcode", postCode)]
  {
    if nextPage == JStr("") then Request(urlExtendor, [Param("shortcode", postCode)])
    else
      var r := Request(urlExtendor, [Param("shortcode", postCode), Param("end_cursor", nextPage)]);
      assert r.params[1].name == "end_cursor";
      r
  }

  function Last<T>(xs: seq<T>): T
    requires |xs| > 0
  {
    xs[|xs| - 1]
  }

  // ---------------------------------------------------------------- likes

  // `user_response = response['data']['shortcode_media']['edge_liked_by']`
  // is read once per page; looking up the full paths below raises the same
  // exception at the same key.
  const LikerEdgesPath: seq<string> := ["data", "shortcode_media", "edge_liked_by", "edges"]
  const HasNextPagePath: seq<string> := ["data", "shortcode_media", "edge_liked_by", "page_info", "has_next_page"]
  const EndCursorPath: seq<string> := ["data", "shortcode_media", "edge_liked_by", "page_info", "end_cursor"]

  /** `[user['node']['id'] for user in response['data']['shortcode_media']['edge_liked_by']['edges']]`. */
  function LikerIds(page: Json): Result<seq<Json>>
  {
    var edges :- GetPath(page, LikerEdgesPath);
    var records :- Records(edges);
    Pluck(records, ["node", "id"])
  }

  /** The page says another page follows: `page_info.has_next_page` is truthy. */
  ghost predicate HasNextPage(page: Json)
  {
    var more := GetPath(page, HasNextPagePath);
    more.Ok? && Truthy(more.value)
  }

  /** `if page_info['has_next_page']: next_page = page_info['end_cursor']`. */
  function LikesCursor(page: Json): (r: Result<Option<Json>>)
    ensures r.Ok? && r.value.Some? <==>
      HasNextPage(page) && GetPath(page, EndCursorPath).Ok?
    ensures r.Ok? && r.value.Some? ==>
      r.value.value == GetPath(page, EndCursorPath).value
    ensures r == Ok(None) <==>
      GetPath(page, HasNextPagePath).Ok? && !HasNextPage(page)
  {
    var more :- GetPath(page, HasNextPagePath);
    if Truthy(more) then
      var cursor :- GetPath(page, EndCursorPath);
      Ok(Some(cursor))
    else Ok(None)
  }

  function LikesPager(shortcode: string): Pager<seq<Json>>
  {
    Pager(LikerIds, LikesCursor, c => Helper(LikesEndpoint, JStr(shortcode), c))
  }

  /** `extract_like_users`. Another page is fetched exactly when
      `has_next_page` is truthy, with that page's `end_cursor` sent as
      `end_cursor` (or nothing, when it is `""`); the result is the liker ids
      of the last fetched page alone. */
  function ExtractLikeUsers(shortcode: string, script: seq<Json>): (r: Run<seq<Json>>)
    ensures 1 <= |r.log| <= |script| + 1
    ensures r.log[0] == Request("likes", [Param("shortcode", JStr(shortcode))])
    ensures forall k :: 1 <= k < |r.log| ==>
      Continues(LikesPager(shortcode), script[k - 1]) &&
      LikesCursor(script[k - 1]).Ok? && LikesCursor(script[k - 1]).value.Some? &&
      r.log[k] == Helper("likes", JStr(shortcode), LikesCursor(script[k - 1]).value.value)
    ensures r.result.Ok? ==> |r.log| <= |script| && LikesCursor(script[|r.log| - 1]) == Ok(None)
    ensures r.result.Ok? ==> LikerIds(script[|r.log| - 1]) == Ok(r.result.value)
    ensures r.result.Ok? ==> forall k :: 0 <= k < |r.log| ==> LikerIds(script[k]).Ok?
    ensures r.result.Err? && |r.log| <= |script| ==>
      Fails(LikesPager(shortcode), script[|r.log| - 1], r.result.error)
    ensures |r.log| == |script| + 1 ==> r.result == Err(OutOfScript)
  {
    var pages := Paginate(LikesPager(shortcode), Helper(LikesEndpoint, JStr(shortcode), JStr("")), script);
    Run(if pages.result.Ok? then Ok(Last(pages.result.value)) else Err(pages.result.error), pages.log)
  }

  /** Two pages of likers: the second request carries the first page's
      cursor, and the result is the second page's likers alone; the first
      page's are dropped. */
  lemma LikesKeepOnlyLastPage(shortcode: string, p0: Json, p1: Json, c: Json)
    requires LikerIds(p0).Ok? && LikesCursor(p0) == Ok(Some(c))
    requires LikerIds(p1).Ok? && LikesCursor(p1) == Ok(None)
    ensures var r := ExtractLikeUsers(shortcode, [p0, p1]);
      && r.log == [Request("likes", [Param("shortcode", JStr(shortcode))]),
                   Helper("likes", JStr(shortcode), c)]
      && r.result == LikerIds(p1)
  {
    var p := LikesPager(shortcode);
    var first := Helper(LikesEndpoint, JStr(shortcode), JStr(""));
    var script := [p0, p1];
    assert Continues(p, script[0]) && Ends(p, script[1]);
    CursorRunIs(p, script, 1);
    RequestCount(p, first, script);
    SucceedsIff(p, first, script);
  }

  // ------------------------------------------------------------- comments

  /** The entries of `response['comments']`, as the comprehensions visit them. */
  function CommentEntries(page: Json): Result<seq<Json>>
  {
    var comments :- Get(page, "comments");
    Records(comments)
  }

  /** `users_list` and `comments_list` of one page: the two comprehensions
      over `response['comments']`, user ids first. They have equal length and
      are index-aligned with the page's comment entries. */
  function CommentColumns(page: Json): (r: Result<(seq<Json>, seq<Json>)>)
    ensures r.Ok? <==>
      (CommentEntries(page).Ok? &&
       forall k :: 0 <= k < |CommentEntries(page).value| ==>
         GetPath(CommentEntries(page).value[k], ["user_id"]).Ok? &&
         GetPath(CommentEntries(page).value[k], ["text"]).Ok?)
    ensures r.Ok? ==> |r.value.0| == |r.value.1| == |CommentEntries(page).value|
    ensures r.Ok? ==> forall k :: 0 <= k < |r.value.0| ==>
      GetPath(CommentEntries(page).value[k], ["user_id"]) == Ok(r.value.0[k]) &&
      GetPath(CommentEntries(page).value[k], ["text"]) == Ok(r.value.1[k])
  {
    var records :- CommentEntries(page);
    var users :- Pluck(records, ["user_id"]);
    var texts :- Pluck(records, ["text"]);
    Ok((users, texts))
  }

  /** `response['next_min_id']`, else (on `KeyError`) `response['end_cursor']`,
      else (on `KeyError`) no cursor. */
  function CommentsCursor(page: Json): (r: Result<Option<Json>>)
    ensures !page.JObj? ==> r == Err(TypeError)
    ensures page.JObj? && "next_min_id" in page.m ==> r == Ok(Some(page.m["next_min_id"]))
    ensures page.JObj? && "next_min_id" !in page.m && "end_cursor" in page.m ==>
      r == Ok(Some(page.m["end_cursor"]))
    ensures r == Ok(None) <==> page.JObj? && "next_min_id" !in page.m && "end_cursor" !in page.m
  {
    match Get(page, "next_min_id")
    case Ok(c) => Ok(Some(c))
    case Err(KeyError) =>
      (match Get(page, "end_cursor")
       case Ok(c) => Ok(Some(c))
       case Err(KeyError) => Ok(None)
       case Err(e) => Err(e))
    case Err(e) => Err(e)
  }

  /** A follow-up comments request: `__helper(shortcode, next_page)` fills
      the helper's `url_extendor` with the shortcode and its `post_code` with
      the cursor, leaving `next_page` at `""`. */
  function CommentsFollowUp(shortcode: string, cursor: Json): (r: Request)
    ensures r == Request(shortcode, [Param("shortcode", cursor)])
    ensures !Sends(r, "end_cursor")
  {
    Helper(shortcode, cursor, JStr(""))
  }

  function CommentsPager(shortcode: string): Pager<(seq<Json>, seq<Json>)>
  {
    Pager(CommentColumns, CommentsCursor, c => CommentsFollowUp(shortcode, c))
  }

  /** `insta_post_comments`. The first request goes to `comments` with the
      shortcode; each later one goes to the endpoint named by the shortcode,
      with the previous response's cursor (`next_min_id` in preference to
      `end_cursor`) as its `shortcode` parameter and no `end_cursor`; the
      loop stops at the first response with neither key; and the result is
      the user ids and texts of the last fetched page alone. */
  function ExtractComments(shortcode: string, script: seq<Json>): (r: Run<(seq<Json>, seq<Json>)>)
    ensures 1 <= |r.log| <= |script| + 1
    ensures r.log[0] == Request("comments", [Param("shortcode", JStr(shortcode))])
    ensures forall k :: 1 <= k < |r.log| ==>
      CommentColumns(script[k - 1]).Ok? &&
      CommentsCursor(script[k - 1]).Ok? && CommentsCursor(script[k - 1]).value.Some? &&
      r.log[k] == Request(shortcode, [Param("shortcode", CommentsCursor(script[k - 1]).value.value)])
    ensures r.result.Ok? ==> |r.log| <= |script|
    ensures r.result.Ok? ==> var last := script[|r.log| - 1];
      last.JObj? && "next_min_id" !in last.m && "end_cursor" !in last.m
    ensures r.result.Ok? ==> CommentColumns(script[|r.log| - 1]) == Ok(r.result.value)
    ensures r.result.Ok? ==> forall k :: 0 <= k < |r.log| ==> CommentColumns(script[k]).Ok?
    ensures r.result.Err? && |r.log| <= |script| ==>
      Fails(CommentsPager(shortcode), script[|r.log| - 1], r.result.error)
    ensures |r.log| == |script| + 1 ==> r.result == Err(OutOfScript)
  {
    var pager := CommentsPager(shortcode);
    var pages := Paginate(pager, Helper(CommentsEndpoint, JStr(shortcode), JStr("")), script);
    assert pages.result.Err? && |pages.log| <= |script| ==>
      Fails(pager, script[|pages.log| - 1], pages.result.error);
    Run(if pages.result.Ok? then Ok(Last(pages.result.value)) else Err(pages.result.error), pages.log)
  }

  /** Two pages of comments, the first with a `next_min_id`: the second
      request goes to the endpoint named by the shortcode, with the cursor
      as its `shortcode` parameter, and the result is the second page's
      columns alone. */
  lemma CommentsTwoPages(shortcode: string, p0: Json, p1: Json, c: Json)
    requires CommentColumns(p0).Ok? && p0.JObj? && "next_min_id" in p0.m && p0.m["next_min_id"] == c
    requires CommentColumns(p1).Ok? && p1.JObj? && "next_min_id" !in p1.m && "end_cursor" !in p1.m
    ensures var r := ExtractComments(shortcode, [p0, p1]);
      && r.log == [Request("comments", [Param("shortcode", JStr(shortcode))]),
                   Request(shortcode, [Param("shortcode", c)])]
      && r.result == CommentColumns(p1)
  {
    var p := CommentsPager(shortcode);
    var first := Helper(CommentsEndpoint, JStr(shortcode), JStr(""));
    var script := [p0, p1];
    assert Continues(p, script[0]) && Ends(p, script[1]);
    CursorRunIs(p, script, 1);
    RequestCount(p, first, script);
    SucceedsIff(p, first, script);
  }
}

=== FILE: paging.dfy ===
/** The cursor-following loop shared by followers/following, likes and
    comments. Each of them reads the records of a page, then looks for a
    cursor; a cursor makes it issue one more request, and its absence ends
    the loop. What differs between them is captured by a `Pager`. */
module Paging {
  import opened Wrappers
  import opened Json
  import opened Transport

  /** One resource's pagination: how a page's records are read, where its
      cursor is (`Ok(None)` when it has none, an error when looking raises),
      and which request a cursor turns into. */
  datatype Pager<T> = Pager(
    items: Json -> Result<T>,
    next: Json -> Result<Option<Json>>,
    follow: Json -> Request)

  /** The page is read and carries a cursor: another request follows it. */
  ghost predicate Continues<T>(p: Pager<T>, page: Json)
  {
    p.items(page).Ok? && p.next(page).Ok? && p.next(page).value.Some?
  }

  /** The page is read and carries no cursor: the loop returns after it. */
  ghost predicate Ends<T>(p: Pager<T>, page: Json)
  {
    p.items(page).Ok? && p.next(page) == Ok(None)
  }

  /** Reading the page raises `e`: the records first, then the cursor. */
  ghost predicate Fails<T>(p: Pager<T>, page: Json, e: Error)
  {
    if p.items(page).Err? then e == p.items(page).error
    else p.next(page).Err? && e == p.next(page).error
  }

  function CursorOf<T>(p: Pager<T>, page: Json): Json
    requires Continues(p, page)
  {
    p.next(page).value.value
  }

  /** The loop from a page already received (`pages[0]`) on, with the later
      pages as the responses to its follow-up requests. The result lists
      every page's records; the log lists the follow-up requests. */
  function Walk<T>(p: Pager<T>, pages: seq<Json>): (r: Run<seq<T>>)
    requires |pages| > 0
    ensures |r.log| <= |pages|
    ensures forall k :: 0 <= k < |r.log| ==>
      Continues(p, pages[k]) && r.log[k] == p.follow(CursorOf(p, pages[k]))
    ensures r.result.Ok? ==> |r.log| < |pages| && Ends(p, pages[|r.log|])
    ensures r.result.Ok? ==> |r.result.value| == |r.log| + 1
    ensures r.result.Ok? ==>
      forall k :: 0 <= k < |r.result.value| ==> p.items(pages[k]) == Ok(r.result.value[k])
    ensures r.result.Err? && |r.log| < |pages| ==> Fails(p, pages[|r.log|], r.result.error)
    ensures |r.log| == |pages| ==> r.result == Err(OutOfScript)
    decreases |pages|
  {
    var page := pages[0];
    match p.items(page)
    case Err(e) => Run(Err(e), [])
    case Ok(x) =>
      match p.next(page)
      case Err(e) => Run(Err(e), [])
      case Ok(None) => Run(Ok([x]), [])
      case Ok(Some(c)) =>
        var req := p.follow(c);
        if |pages| == 1 then Run(Err(OutOfScript), [req])
        else
          var rest := Walk(p, pages[1..]);
          var result := if rest.result.Ok? then Ok([x] + rest.result.value) else Err(rest.result.error);
          Run(result, [req] + rest.log)
  }

  /** The whole loop: the first request, then `Walk` over its response and
      the responses to the follow-ups. `script[k]` answers request `k`. */
  function Paginate<T>(p: Pager<T>, first: Request, script: seq<Json>): (r: Run<seq<T>>)
    ensures 1 <= |r.log| <= |script| + 1 && r.log[0] == first
    ensures forall k :: 1 <= k < |r.log| ==>
      Continues(p, script[k - 1]) && r.log[k] == p.follow(CursorOf(p, script[k - 1]))
    ensures r.result.Ok? ==> |r.log| <= |script| && Ends(p, script[|r.log| - 1])
    ensures r.result.Ok? ==> |r.result.value| == |r.log|
    ensures r.result.Ok? ==>
      forall k :: 0 <= k < |r.log| ==> p.items(script[k]) == Ok(r.result.value[k])
    ensures r.result.Err? && |r.log| <= |script| ==> Fails(p, script[|r.log| - 1], r.result.error)
    ensures |r.log| == |script| + 1 ==> r.result == Err(OutOfScript)
  {
    if |script| == 0 then Run(Err(OutOfScript), [first])
    else
      var w := Walk(p, script);
      Run(w.result, [first] + w.log)
  }

  /** Reference count: the length of the run of pages that carry a cursor,
      from the first response on. */
  ghost function CursorRun<T>(p: Pager<T>, pages: seq<Json>): (n: nat)
    ensures n <= |pages|
    decreases |pages|
  {
    if |pages| == 0 || !Continues(p, pages[0]) then 0 else 1 + CursorRun(p, pages[1..])
  }

  lemma {:induction false} CursorRunIs<T>(p: Pager<T>, pages: seq<Json>, n: nat)
    requires n <= |pages|
    requires forall k :: 0 <= k < n ==> Continues(p, pages[k])
    requires n < |pages| ==> !Continues(p, pages[n])
    ensures CursorRun(p, pages) == n
    decreases n
  {
    if n > 0 {
      assert Continues(p, pages[0]);
      forall k | 0 <= k < n - 1 ensures Continues(p, pages[1..][k]) {
        assert pages[1..][k] == pages[k + 1];
      }
      if n - 1 < |pages[1..]| {
        assert pages[1..][n - 1] == pages[n];
      }
      CursorRunIs(p, pages[1..], n - 1);
    }
  }

  /** The loop issues exactly one request more than the number of leading
      responses that carry a cursor: it stops at the first response without
      one (or the first it cannot read), and runs out of script when there is
      no such response. */
  lemma RequestCount<T>(p: Pager<T>, first: Request, script: seq<Json>)
    ensures |Paginate(p, first, script).log| == CursorRun(p, script) + 1
  {
    var r := Paginate(p, first, script);
    var n := |r.log| - 1;
    forall k | 0 <= k < n ensures Continues(p, script[k]) {
      assert Continues(p, script[(k + 1) - 1]);
    }
    if n < |script| {
      if r.result.Ok? {
        assert Ends(p, script[n]);
      } else {
        assert Fails(p, script[n], r.result.error);
      }
    }
    CursorRunIs(p, script, n);
  }

  /** The loop succeeds exactly when the first response without a cursor
      exists and is read without error. */
  lemma SucceedsIff<T>(p: Pager<T>, first: Request, script: seq<Json>)
    ensures Paginate(p, first, script).result.Ok? <==>
      CursorRun(p, script) < |script| && Ends(p, script[CursorRun(p, script)])
  {
    RequestCount(p, first, script);
  }

  /** Two pagers that read pages alike and whose follow-up requests differ
      only by a fixed rewriting `f` run alike: same result, and each request
      of the second is `f` of the first's. */
  lemma {:induction false} WalkRewritten<T>(p: Pager<T>, q: Pager<T>, f: Request -> Request, pages: seq<Json>)
    requires |pages| > 0
    requires p.items == q.items && p.next == q.next
    requires forall c :: q.follow(c) == f(p.follow(c))
    ensures Walk(q, pages).result == Walk(p, pages).result
    ensures |Walk(q, pages).log| == |Walk(p, pages).log|
    ensures forall k :: 0 <= k < |Walk(p, pages).log| ==> Walk(q, pages).log[k] == f(Walk(p, pages).log[k])
    decreases |pages|
  {
    if |pages| > 1 {
      WalkRewritten(p, q, f, pages[1..]);
    }
  }

  /** `WalkRewritten` for the whole loop, whose first requests are related
      by the same rewriting. */
  lemma PaginateRewritten<T>(p: Pager<T>, q: Pager<T>, f: Request -> Request,
                             first: Request, script: seq<Json>)
    requires p.items == q.items && p.next == q.next
    requires forall c :: q.follow(c) == f(p.follow(c))
    ensures Paginate(q, f(first), script).result == Paginate(p, first, script).result
    ensures |Paginate(q, f(first), script).log| == |Paginate(p, first, script).log|
    ensures forall k :: 0 <= k < |Paginate(p, first, script).log| ==>
      Paginate(q, f(first), script).log[k] == f(Paginate(p, first, script).log[k])
  {
    if |script| > 0 {
      WalkRewritten(p, q, f, script);
      var wp, wq := Walk(p, script), Walk(q, script);
      forall k | 1 <= k < |wp.log| + 1
        ensures ([f(first)] + wq.log)[k] == f(([first] + wp.log)[k])
      {
        assert ([f(first)] + wq.log)[k] == wq.log[k - 1];
        assert ([first] + wp.log)[k] == wp.log[k - 1];
      }
    }
  }
}

=== FILE: pipeline.dfy ===
/** `InstagramPipeline.extract_user_profile`: the older profile extractor,
    which builds a fixed eight-key record with three keys renamed. */
module Pipeline {
  import opened Wrappers
  import opened Json
  import opened Transport
  import opened Constants
  import UserInfo

  /** Output key and the `data['user']` field it is read from, in dict order
      (after `user_id`, which is the argument itself). */
  const Renaming: seq<(string, string)> := [
    ("username", "username"),
    ("following", "following_count"),
    ("followers", "follower_count"),
    ("is_private", "is_private"),
    ("is_verified", "is_verified"),
    ("profile_pic_url", "profile_pic_url"),
    ("total_posts", "media_count")]

  /** The dict literal: `user_id` from the argument, then the seven lookups in
      order, the first missing one raising. */
  function Project(userId: Json, data: Json): (r: Result<map<string, Json>>)
    ensures r.Ok? <==> forall f :: f in UserExtractFields ==> UserInfo.UserField(data, f).Ok?
    ensures r.Ok? ==>
      r.value.Keys == {"user_id", "username", "following", "followers", "is_private",
                       "is_verified", "profile_pic_url", "total_posts"}
    ensures r.Ok? ==> r.value["user_id"] == userId
    ensures r.Ok? ==> forall i :: 0 <= i < |Renaming| ==>
      Renaming[i].0 in r.value && Ok(r.value[Renaming[i].0]) == UserInfo.UserField(data, Renaming[i].1)
  {
    UserFieldsSpelledOut(data);
    var username :- UserInfo.UserField(data, "username");
    var following :- UserInfo.UserField(data, "following_count");
    var followers :- UserInfo.UserField(data, "follower_count");
    var isPrivate :- UserInfo.UserField(data, "is_private");
    var isVerified :- UserInfo.UserField(data, "is_verified");
    var profilePicUrl :- UserInfo.UserField(data, "profile_pic_url");
    var totalPosts :- UserInfo.UserField(data, "media_count");
    Ok(map[
      "user_id" := userId,
      "username" := username,
      "following" := following,
      "followers" := followers,
      "is_private" := isPrivate,
      "is_verified" := isVerified,
      "profile_pic_url" := profilePicUrl,
      "total_posts" := totalPosts])
  }

  /** The allow-list condition, field by field. */
  lemma UserFieldsSpelledOut(data: Json)
    ensures (forall f :: f in UserExtractFields ==> UserInfo.UserField(data, f).Ok?) <==>
      && UserInfo.UserField(data, "username").Ok?
      && UserInfo.UserField(data, "following_count").Ok?
      && UserInfo.UserField(data, "follower_count").Ok?
      && UserInfo.UserField(data, "is_private").Ok?
      && UserInfo.UserField(data, "is_verified").Ok?
      && UserInfo.UserField(data, "profile_pic_url").Ok?
      && UserInfo.UserField(data, "media_count").Ok?
  {
    var fs := UserExtractFields;
    assert fs[0] == "username" && fs[1] == "following_count" && fs[2] == "follower_count";
    assert fs[3] == "is_private" && fs[4] == "is_verified" && fs[5] == "profile_pic_url";
    assert fs[6] == "media_count";
  }

  /** `extract_user_profile`: exactly one request, to `info` with
      `id_user = user_id`, and the projection of its response. */
  function ExtractUserProfile(userId: Json, script: seq<Json>): (r: Run<map<string, Json>>)
    ensures r.log == [Request("info", [Param("id_user", userId)])]
    ensures r.result.Ok? <==> |script| > 0 && Project(userId, script[0]).Ok?
    ensures r.result.Ok? ==> r.result == Project(userId, script[0])
  {
    Run(if |script| == 0 then Err(OutOfScript) else Project(userId, script[0]),
        [Request("info", [Param("id_user", userId)])])
  }

  /** The two profile extractors agree: they issue the same request, succeed
      on the same responses, and, apart from `user_id`, the pipeline's record
      is the allow-list profile under the renaming. */
  lemma AgreesWithAllowList(userId: Json, script: seq<Json>)
    ensures ExtractUserProfile(userId, script).log == UserInfo.ExtractUserProfile(userId, script).log
    ensures var ours := ExtractUserProfile(userId, script).result;
      var mine := UserInfo.ExtractUserProfile(userId, script).result;
      && (ours.Ok? <==> mine.Ok?)
      && (ours.Ok? ==> forall i :: 0 <= i < |Renaming| ==>
            Renaming[i].0 in ours.value && Renaming[i].1 in mine.value &&
            ours.value[Renaming[i].0] == mine.value[Renaming[i].1])
  {
    var ours := ExtractUserProfile(userId, script);
    var mine := UserInfo.ExtractUserProfile(userId, script);
    if |script| > 0 {
      RenamedProfile(userId, script[0], mine.result);
      assert ours.result == Project(userId, script[0]);
    }
  }

  /** Any allow-list profile of `data` (seven keys, each copied from
      `data['user']`) is the pipeline's record under the renaming. */
  lemma RenamedProfile(userId: Json, data: Json, mine: Result<map<string, Json>>)
    requires mine.Ok? <==> forall f :: f in UserExtractFields ==> UserInfo.UserField(data, f).Ok?
    requires mine.Ok? ==> forall f :: f in UserExtractFields ==>
      f in mine.value && Ok(mine.value[f]) == UserInfo.UserField(data, f)
    ensures Project(userId, data).Ok? <==> mine.Ok?
    ensures Project(userId, data).Ok? ==> forall i :: 0 <= i < |Renaming| ==>
      Renaming[i].0 in Project(userId, data).value && Renaming[i].1 in mine.value &&
      Project(userId, data).value[Renaming[i].0] == mine.value[Renaming[i].1]
  {
    var fields := UserExtractFields;
    assert forall i :: 0 <= i < |Renaming| ==> Renaming[i].1 == fields[i];
    var ours := Project(userId, data);
    if ours.Ok? {
      forall i | 0 <= i < |Renaming|
        ensures Renaming[i].0 in ours.value && Renaming[i].1 in mine.value && ours.value[Renaming[i].0] == mine.value[Renaming[i].1]
      {
        assert Renaming[i].1 in fields;
      }
    }
  }
}

=== FILE: post_info.dfy ===
/** `PostInfo`: the projection of one post-detail response into a flat post
    record, plus, for a carousel, the per-child "extended" record. */
module PostInfo {
  import opened Wrappers
  import opened Json
  import opened Transport
  import opened Constants
  import opened Format
  import opened Text

  /** The dict `extract_post_info` builds, field for field. Values the code
      copies unchanged stay JSON values. */
  datatype Post = Post(
    postId: Json,
    takenAt: Json,
    userId: Json,
    text: string,
    hashtags: seq<string>,
    hideLike: Json,
    numLikes: Json,
    numComments: Json,
    displayUrl: Json,
    userTagged: bool,
    userTagList: seq<Json>,
    numContent: nat)

  /** The dict `__extended_post_info` builds: one entry per carousel child in
      every list. */
  datatype Carousel = Carousel(
    postId: Json,
    postContentId: seq<string>,
    contentId: seq<Json>,
    urlId: seq<Json>,
    isVideo: seq<Json>,
    numViews: seq<Json>)

  /** The three per-child lists chosen together in the `try`/`except KeyError`. */
  datatype Media = Media(views: seq<Json>, urls: seq<Json>, isVideo: seq<Json>)

  /** `__helper_post_info`: `base_api("post_info", shortcode=...)`. */
  function PostInfoRequest(shortcode: string): (r: Request)
    ensures r.endpoint == "post_info"
    ensures Sends(r, "shortcode") && !Sends(r, "end_cursor") && !Sends(r, "id_user")
    ensures forall k :: 0 <= k < |r.params| ==> r.params[k] == Param("shortcode", JStr(shortcode))
  {
    var r := Request(PostInfoEndpoint, [Param("shortcode", JStr(shortcode))]);
    assert r.params[0].name == "shortcode";
    r
  }

  // ----------------------------------------------------------- tagged users

  const TaggedKey: string := "edge_media_to_tagged_user"

  /** `json_object['edge_media_to_tagged_user']['edges']`, as iterated. */
  function TaggedEdges(data: Json): Result<seq<Json>>
  {
    var tagged :- Get(data, TaggedKey);
    var edges :- Get(tagged, "edges");
    Records(edges)
  }

  /** `__helper_user_tag`: `(False, [])` when the tagged-user value is empty
      (`len` 0), otherwise `(True, ids of its edges in order)`, which may be
      `(True, [])`. */
  function UserTag(data: Json): (r: Result<(bool, seq<Json>)>)
    ensures (r.Ok? && !r.value.0) <==> Get(data, TaggedKey).Ok? && Len(Get(data, TaggedKey).value) == Ok(0)
    ensures r.Ok? && !r.value.0 ==> r.value.1 == []
    ensures r.Ok? && r.value.0 ==>
      Get(data, TaggedKey).Ok? && Len(Get(data, TaggedKey).value).Ok? && Len(Get(data, TaggedKey).value).value > 0
    ensures r.Ok? && r.value.0 ==>
      TaggedEdges(data).Ok? && |r.value.1| == |TaggedEdges(data).value| &&
      forall k :: 0 <= k < |r.value.1| ==> GetPath(TaggedEdges(data).value[k], ["node", "user", "id"]) == Ok(r.value.1[k])
    ensures Get(data, TaggedKey).Ok? && Len(Get(data, TaggedKey).value).Ok? && Len(Get(data, TaggedKey).value).value > 0 ==>
      (r.Ok? <==>
         TaggedEdges(data).Ok? &&
         forall k :: 0 <= k < |TaggedEdges(data).value| ==> GetPath(TaggedEdges(data).value[k], ["node", "user", "id"]).Ok?)
    ensures Get(data, TaggedKey).Err? || Len(Get(data, TaggedKey).value).Err? ==> r.Err?
  {
    var tagged :- Get(data, TaggedKey);
    var n :- Len(tagged);
    if n == 0 then Ok((false, []))
    else
      var edges :- TaggedEdges(data);
      var ids :- Pluck(edges, ["node", "user", "id"]);
      Ok((true, ids))
  }

  /** A tagged-user object whose edge list is empty is not empty itself: the
      post counts as tagged, with no tagged ids. */
  lemma TaggedWithoutEdges(data: Json)
    requires Get(data, TaggedKey) == Ok(JObj(map["edges" := JArr([])]))
    ensures UserTag(data) == Ok((true, []))
  {
    var tagged := JObj(map["edges" := JArr([])]);
    assert Len(tagged) == Ok(1);
    assert TaggedEdges(data) == Ok([]);
  }

  // ---------------------------------------------------------- content count

  const SidecarKey: string := "edge_sidecar_to_children"

  /** `__helper_num_content`: 1 without a sidecar, otherwise the number of
      sidecar edges (0 for an empty edge list). */
  function NumContent(data: map<string, Json>): (r: Result<nat>)
    ensures SidecarKey !in data ==> r == Ok(1)
    ensures SidecarKey in data && Get(data[SidecarKey], "edges").Ok? && Get(data[SidecarKey], "edges").value.JArr? ==>
      r == Ok(|Get(data[SidecarKey], "edges").value.a|)
    ensures SidecarKey in data && Get(data[SidecarKey], "edges").Err? ==> r.Err?
    ensures SidecarKey in data && Get(data[SidecarKey], "edges").Ok? && Len(Get(data[SidecarKey], "edges").value).Err? ==>
      r == Err(TypeError)
  {
    if SidecarKey !in data then Ok(1)
    else
      var edges :- Get(data[SidecarKey], "edges");
      Len(edges)
  }

  // --------------------------------------------------------------- carousel

  /** `f'{post_id}[{str(i)}]'`. */
  function CompositeId(postId: Json, i: nat): string
  {
    Str(postId) + "[" + NatStr(i) + "]"
  }

  /** The index inside a composite id, read back: it is the child's index. */
  lemma CompositeIdIndex(postId: Json, i: nat)
    ensures var s := CompositeId(postId, i);
      var lo := |Str(postId)| + 1;
      lo <= |s| - 1 &&
      (forall k :: lo <= k < |s| - 1 ==> IsDigit(s[k])) &&
      ParseNat(s[lo..|s| - 1]) == i
  {
    var s := CompositeId(postId, i);
    var lo := |Str(postId)| + 1;
    assert s[lo..|s| - 1] == NatStr(i);
    ParseNatStr(i);
  }

  /** Children of one carousel get pairwise distinct composite ids. */
  lemma CompositeIdsDistinct(postId: Json, i: nat, j: nat)
    requires i != j
    ensures CompositeId(postId, i) != CompositeId(postId, j)
  {
    CompositeIdIndex(postId, i);
    CompositeIdIndex(postId, j);
  }

  /** `json_object['edge_sidecar_to_children']['edges']`, indexed as
      `data[i] for i in range(len(data))`. */
  function Children(data: Json): Result<seq<Json>>
  {
    var edges :- GetPath(data, [SidecarKey, "edges"]);
    Indexed(edges)
  }

  /** The child's `node` is a dict: a missing field in it raises `KeyError`. */
  ghost predicate NodeIsObject(child: Json)
  {
    GetPath(child, ["node"]).Ok? && GetPath(child, ["node"]).value.JObj?
  }

  /** The child has all three video fields. */
  ghost predicate HasVideoFields(child: Json)
  {
    && GetPath(child, ["node", "video_view_count"]).Ok?
    && GetPath(child, ["node", "video_url"]).Ok?
    && GetPath(child, ["node", "is_video"]).Ok?
  }

  /** The body of the `try`: views, urls and flags from the video fields. */
  function VideoMedia(children: seq<Json>): Result<Media>
  {
    var views :- Pluck(children, ["node", "video_view_count"]);
    var urls :- Pluck(children, ["node", "video_url"]);
    var isVideo :- Pluck(children, ["node", "is_video"]);
    Ok(Media(views, urls, isVideo))
  }

  /** The body of the `except KeyError`: no views, the image urls. */
  function ImageMedia(children: seq<Json>): Result<Media>
  {
    var urls :- Pluck(children, ["node", "display_url"]);
    var isVideo :- Pluck(children, ["node", "is_video"]);
    Ok(Media(seq(|children|, _ => JInt(0)), urls, isVideo))
  }

  lemma NodeFieldMissing(child: Json, field: string)
    requires NodeIsObject(child)
    requires GetPath(child, ["node", field]).Err?
    ensures GetPath(child, ["node", field]).error == KeyError
  {
    var node := GetPath(child, ["node"]).value;
    assert Get(child, "node") == Ok(node);
    assert ["node", field][1..] == [field] && [field][1..] == [];
    assert GetPath(child, ["node", field]) == GetPath(node, [field]);
  }

  /** The `try`/`except KeyError` choice, made once for the whole post: the
      video fields when every child has all three, otherwise (children whose
      `node` is a dict) every view 0 and every url the child's
      `display_url`; a missing `is_video` fails in both branches. */
  function MediaFields(children: seq<Json>): (r: Result<Media>)
    ensures r.Ok? ==> |r.value.views| == |r.value.urls| == |r.value.isVideo| == |children|
    ensures (forall k :: 0 <= k < |children| ==> HasVideoFields(children[k])) ==>
      r.Ok? &&
      forall k :: 0 <= k < |children| ==>
        && Ok(r.value.views[k]) == GetPath(children[k], ["node", "video_view_count"])
        && Ok(r.value.urls[k]) == GetPath(children[k], ["node", "video_url"])
        && Ok(r.value.isVideo[k]) == GetPath(children[k], ["node", "is_video"])
    ensures (forall k :: 0 <= k < |children| ==> NodeIsObject(children[k])) &&
            (exists k :: 0 <= k < |children| && !HasVideoFields(children[k])) ==>
      && (r.Ok? <==> forall k :: 0 <= k < |children| ==>
            GetPath(children[k], ["node", "display_url"]).Ok? && GetPath(children[k], ["node", "is_video"]).Ok?)
      && (r.Ok? ==> forall k :: 0 <= k < |children| ==>
            && r.value.views[k] == JInt(0)
            && Ok(r.value.urls[k]) == GetPath(children[k], ["node", "display_url"])
            && Ok(r.value.isVideo[k]) == GetPath(children[k], ["node", "is_video"]))
    ensures (exists k :: 0 <= k < |children| && GetPath(children[k], ["node", "is_video"]).Err?) ==> r.Err?
  {
    var video := VideoMedia(children);
    VideoFallsBack(children);
    match video
    case Err(KeyError) => ImageMedia(children)
    case _ => video
  }

  /** When some child lacks a video field and every `node` is a dict, the
      `try` body raises `KeyError`. */
  lemma VideoFallsBack(children: seq<Json>)
    ensures (forall k :: 0 <= k < |children| ==> NodeIsObject(children[k])) &&
            (exists k :: 0 <= k < |children| && !HasVideoFields(children[k])) ==>
      VideoMedia(children) == Err(KeyError)
  {
    if (forall k :: 0 <= k < |children| ==> NodeIsObject(children[k])) &&
       (exists k :: 0 <= k < |children| && !HasVideoFields(children[k])) {
      var views := Pluck(children, ["node", "video_view_count"]);
      var urls := Pluck(children, ["node", "video_url"]);
      var isVideo := Pluck(children, ["node", "is_video"]);
      if views.Err? {
        var k :| FirstFailure(children, ["node", "video_view_count"], k, views.error);
        NodeFieldMissing(children[k], "video_view_count");
      } else if urls.Err? {
        var k :| FirstFailure(children, ["node", "video_url"], k, urls.error);
        NodeFieldMissing(children[k], "video_url");
      } else if isVideo.Err? {
        var k :| FirstFailure(children, ["node", "is_video"], k, isVideo.error);
        NodeFieldMissing(children[k], "is_video");
      } else {
        assert false;
      }
    }
  }

  /** `__extended_post_info(post_id, json_object)`. Every list has one entry
      per child; entry `i` of `post_content_id` is `post_id[i]`, entry `i` of
      `content_id` is child `i`'s node id, and the other three lists are the
      choice `MediaFields` makes for the whole post. */
  function Extended(postId: Json, data: Json): (r: Result<Carousel>)
    ensures r.Ok? <==>
      && Children(data).Ok?
      && (forall k :: 0 <= k < |Children(data).value| ==> GetPath(Children(data).value[k], ["node", "id"]).Ok?)
      && MediaFields(Children(data).value).Ok?
    ensures r.Ok? ==> Children(data).Ok?
    ensures r.Ok? ==> r.value.postId == postId
    ensures r.Ok? ==> var n := |Children(data).value|;
      |r.value.postContentId| == |r.value.contentId| == |r.value.urlId| == n &&
      |r.value.isVideo| == |r.value.numViews| == n
    ensures r.Ok? ==> forall i :: 0 <= i < |r.value.postContentId| ==>
      r.value.postContentId[i] == CompositeId(postId, i)
    ensures r.Ok? ==> forall i :: 0 <= i < |r.value.contentId| ==>
      GetPath(Children(data).value[i], ["node", "id"]) == Ok(r.value.contentId[i])
    ensures r.Ok? ==>
      MediaFields(Children(data).value) == Ok(Media(r.value.numViews, r.value.urlId, r.value.isVideo))
  {
    var children :- Children(data);
    var contentIds :- Pluck(children, ["node", "id"]);
    var media :- MediaFields(children);
    var ids := seq(|children|, i requires 0 <= i < |children| => CompositeId(postId, i));
    Ok(Carousel(postId, ids, contentIds, media.urls, media.isVideo, media.views))
  }

  // ------------------------------------------------------------ the record

  /** `data['edge_media_to_caption']['edges'][0]['node']['text']`: an empty
      edge list raises `IndexError`. */
  function Caption(data: Json): Result<Json>
  {
    var edges :- GetPath(data, ["edge_media_to_caption", "edges"]);
    var first :- At(edges, 0);
    GetPath(first, ["node", "text"])
  }

  /** `text.split(" ")` needs a string: anything else has no `split`. */
  function CaptionText(caption: Json): Result<string>
  {
    match caption
    case JStr(s) => Ok(s)
    case _ => Err(AttributeError)
  }

  /** The response fields copied into the record unchanged. */
  const CopiedPaths: seq<seq<string>> := [
    ["id"], ["taken_at_timestamp"], ["owner", "id"], ["like_and_view_counts_disabled"],
    ["edge_media_preview_like", "count"], ["edge_media_to_comment", "count"], ["display_url"]]

  /** The body of `extract_post_info` after the request: tagged users, content
      count, the record's fields in dict order, then the extended record
      unless the content count is 1. */
  function Project(data: Json): (r: Result<(Post, Option<Carousel>)>)
    ensures r.Ok? <==>
      && data.JObj?
      && UserTag(data).Ok?
      && NumContent(data.m).Ok?
      && (forall i :: 0 <= i < |CopiedPaths| ==> GetPath(data, CopiedPaths[i]).Ok?)
      && Caption(data).Ok? && Caption(data).value.JStr?
      && (NumContent(data.m).value != 1 ==> "id" in data.m && Extended(data.m["id"], data).Ok?)
    ensures r.Ok? ==> data.JObj?
    ensures r.Ok? ==> forall i :: 0 <= i < |CopiedPaths| ==> GetPath(data, CopiedPaths[i]).Ok?
    ensures r.Ok? ==> var post := r.value.0;
      && Ok(post.postId) == Get(data, "id")
      && Ok(post.takenAt) == Get(data, "taken_at_timestamp")
      && Ok(post.userId) == GetPath(data, ["owner", "id"])
      && Ok(post.hideLike) == Get(data, "like_and_view_counts_disabled")
      && Ok(post.numLikes) == GetPath(data, ["edge_media_preview_like", "count"])
      && Ok(post.numComments) == GetPath(data, ["edge_media_to_comment", "count"])
      && Ok(post.displayUrl) == Get(data, "display_url")
    ensures r.Ok? ==> Caption(data) == Ok(JStr(r.value.0.text)) && r.value.0.hashtags == Hashtags(r.value.0.text)
    ensures r.Ok? ==> UserTag(data) == Ok((r.value.0.userTagged, r.value.0.userTagList))
    ensures r.Ok? ==> NumContent(data.m) == Ok(r.value.0.numContent)
    ensures r.Ok? ==> (r.value.1.None? <==> r.value.0.numContent == 1)
    ensures r.Ok? && r.value.1.Some? ==>
      && Extended(r.value.0.postId, data) == Ok(r.value.1.value)
      && |r.value.1.value.contentId| == r.value.0.numContent
  {
    match data
    case JObj(m) =>
      CopiedPathsSpelledOut(data);
      var tag :- UserTag(data);
      var n :- NumContent(m);
      var postId :- Get(data, "id");
      var takenAt :- Get(data, "taken_at_timestamp");
      var userId :- GetPath(data, ["owner", "id"]);
      var caption :- Caption(data);
      var text :- CaptionText(caption);
      var hideLike :- Get(data, "like_and_view_counts_disabled");
      var numLikes :- GetPath(data, ["edge_media_preview_like", "count"]);
      var numComments :- GetPath(data, ["edge_media_to_comment", "count"]);
      var displayUrl :- Get(data, "display_url");
      var post := Post(postId, takenAt, userId, text, Hashtags(text), hideLike, numLikes,
                       numComments, displayUrl, tag.0, tag.1, n);
      if n == 1 then Ok((post, None))
      else
        var carousel :- Extended(postId, data);
        ChildCountIsContentCount(m);
        Ok((post, Some(carousel)))
    case _ => Err(TypeError)
  }

  /** Every copied path resolves exactly when each of the seven lookups does. */
  lemma CopiedPathsSpelledOut(data: Json)
    ensures (forall i :: 0 <= i < |CopiedPaths| ==> GetPath(data, CopiedPaths[i]).Ok?) <==>
      && Get(data, "id").Ok?
      && Get(data, "taken_at_timestamp").Ok?
      && GetPath(data, ["owner", "id"]).Ok?
      && Get(data, "like_and_view_counts_disabled").Ok?
      && GetPath(data, ["edge_media_preview_like", "count"]).Ok?
      && GetPath(data, ["edge_media_to_comment", "count"]).Ok?
      && Get(data, "display_url").Ok?
  {
    forall key: string ensures GetPath(data, [key]) == Get(data, key) {
      assert [key][1..] == [];
    }
    var ps := CopiedPaths;
    assert ps[0] == ["id"] && ps[1] == ["taken_at_timestamp"] && ps[2] == ["owner", "id"];
    assert ps[3] == ["like_and_view_counts_disabled"] && ps[4] == ["edge_media_preview_like", "count"];
    assert ps[5] == ["edge_media_to_comment", "count"] && ps[6] == ["display_url"];
  }

  /** When the children can be indexed, there are as many as the content
      count says. */
  lemma ChildCountIsContentCount(m: map<string, Json>)
    requires SidecarKey in m && Children(JObj(m)).Ok?
    ensures NumContent(m) == Ok(|Children(JObj(m)).value|)
  {
    var path: seq<string> := [SidecarKey, "edges"];
    assert path[1..] == ["edges"];
    assert ["edges"][1..] == [];
    assert GetPath(JObj(m), path) == GetPath(m[SidecarKey], ["edges"]);
    assert GetPath(m[SidecarKey], ["edges"]) == Get(m[SidecarKey], "edges");
  }

  /** `extract_post_info`: one `post_info` request for the shortcode, then the
      projection of its response. */
  function ExtractPostInfo(shortcode: string, script: seq<Json>): (r: Run<(Post, Option<Carousel>)>)
    ensures r.log == [Request("post_info", [Param("shortcode", JStr(shortcode))])]
    ensures r.result.Ok? <==> |script| > 0 && Project(script[0]).Ok?
    ensures r.result.Ok? ==> r.result == Project(script[0])
  {
    Run(if |script| == 0 then Err(OutOfScript) else Project(script[0]), [PostInfoRequest(shortcode)])
  }
}

=== FILE: text.dfy ===
/** Caption splitting and hashtag extraction, as `caption.split(" ")`
    followed by `[tag[1:] for tag in ... if tag.startswith('#')]`. */
module Text {

  /** `s.split(" ")` with an explicit separator: the pieces between single
      spaces, so leading, trailing or doubled spaces give empty pieces and
      `""` gives `[""]`. */
  function Split(s: string): (r: seq<string>)
    ensures |r| >= 1
    ensures forall k :: 0 <= k < |r| ==> ' ' !in r[k]
    decreases |s|
  {
    if |s| == 0 then [""]
    else
      var rest := Split(s[1..]);
      if s[0] == ' ' then [""] + rest
      else [[s[0]] + rest[0]] + rest[1..]
  }

  /** `" ".join(pieces)`. */
  function Join(pieces: seq<string>): string
    decreases |pieces|
  {
    if |pieces| == 0 then ""
    else if |pieces| == 1 then pieces[0]
    else pieces[0] + " " + Join(pieces[1..])
  }

  /** Unfolds `Split` on a string given as its first character and the rest. */
  lemma SplitCons(c: char, t: string)
    ensures Split([c] + t) ==
      if c == ' ' then [""] + Split(t) else [[c] + Split(t)[0]] + Split(t)[1..]
  {
    assert ([c] + t)[0] == c;
    assert ([c] + t)[1..] == t;
  }

  /** Unfolds `Join` on a list of at least two pieces. */
  lemma JoinCons(p: string, rest: seq<string>)
    requires |rest| >= 1
    ensures Join([p] + rest) == p + " " + Join(rest)
  {
    assert ([p] + rest)[1..] == rest;
  }

  /** Consing onto a concatenation. A lemma of its own so that the
      inductive proofs below need not prove this extensional step in their
      own, larger contexts. */
  lemma ConsAssoc<T>(c: T, x: seq<T>, y: seq<T>)
    ensures ([c] + x) + y == [c] + (x + y)
  {
  }

  /** Prefixing a character to the first piece prefixes it to the joined string. */
  lemma JoinConsChar(c: char, pieces: seq<string>)
    requires |pieces| >= 1
    ensures Join([[c] + pieces[0]] + pieces[1..]) == [c] + Join(pieces)
  {
    var rest := pieces[1..];
    assert pieces == [pieces[0]] + rest;
    if |rest| == 0 {
      assert [[c] + pieces[0]] + rest == [[c] + pieces[0]];
    } else {
      JoinCons([c] + pieces[0], rest);
      JoinCons(pieces[0], rest);
      ConsAssoc(c, pieces[0], " ");
      ConsAssoc(c, pieces[0] + " ", Join(rest));
    }
  }

  /** Joining the pieces back with single spaces restores the caption. */
  lemma {:induction false} JoinSplit(s: string)
    ensures Join(Split(s)) == s
    decreases |s|
  {
    if |s| > 0 {
      var t := s[1..];
      assert s == [s[0]] + t;
      var rest := Split(t);
      JoinSplit(t);
      SplitCons(s[0], t);
      if s[0] == ' ' {
        JoinCons("", rest);
        assert "" + " " + t == [' '] + t;
      } else {
        JoinConsChar(s[0], rest);
      }
    }
  }

  /** Splitting a space-free piece prepended to `t` glues the piece onto the
      first piece of `t`. */
  lemma {:induction false} SplitPrefix(a: string, t: string)
    requires ' ' !in a
    ensures Split(a + t) == [a + Split(t)[0]] + Split(t)[1..]
    decreases |a|
  {
    var st := Split(t);
    if |a| == 0 {
      assert a + t == t;
      assert a + st[0] == st[0];
      assert st == [st[0]] + st[1..];
    } else {
      var tail := a[1..];
      assert a == [a[0]] + tail;
      assert ' ' !in tail by {
        forall k | 0 <= k < |tail| ensures tail[k] != ' ' {
          assert tail[k] == a[k + 1];
        }
      }
      assert ([a[0]] + tail) + t == [a[0]] + (tail + t);
      SplitPrefix(tail, t);
      var rest := Split(tail + t);
      SplitCons(a[0], tail + t);
      assert rest[0] == tail + st[0];
      assert rest[1..] == st[1..];
      assert ([a[0]] + tail) + st[0] == [a[0]] + (tail + st[0]);
    }
  }

  /** Splitting space-free pieces joined by single spaces gives them back. */
  lemma {:induction false} SplitJoin(pieces: seq<string>)
    requires |pieces| >= 1
    requires forall k :: 0 <= k < |pieces| ==> ' ' !in pieces[k]
    ensures Split(Join(pieces)) == pieces
    decreases |pieces|
  {
    var p := pieces[0];
    var rest := pieces[1..];
    assert pieces == [p] + rest;
    if |rest| == 0 {
      SplitPrefix(p, "");
      assert p + "" == p;
      assert Split("") == [""];
      assert p + "" == p;
    } else {
      var tail := Join(rest);
      SplitJoin(rest);
      JoinCons(p, rest);
      assert p + " " + tail == p + ([' '] + tail);
      SplitPrefix(p, [' '] + tail);
      SplitCons(' ', tail);
      assert Split([' '] + tail) == [""] + rest;
      assert p + "" == p;
    }
  }

  /** Splitting at a space splits each side on its own. */
  lemma {:induction false} SplitAtSpace(a: string, b: string)
    ensures Split(a + " " + b) == Split(a) + Split(b)
    decreases |a|
  {
    if |a| == 0 {
      assert a + " " + b == [' '] + b;
      SplitCons(' ', b);
    } else {
      var tail := a[1..];
      assert a == [a[0]] + tail;
      assert a + " " + b == [a[0]] + (tail + " " + b);
      SplitAtSpace(tail, b);
      var rw := Split(tail + " " + b);
      var ra := Split(tail);
      assert rw == ra + Split(b);
      assert rw[0] == ra[0];
      assert rw[1..] == ra[1..] + Split(b);
      SplitCons(a[0], tail + " " + b);
      SplitCons(a[0], tail);
      if a[0] == ' ' {
        ConsAssoc("", ra, Split(b));
      } else {
        ConsAssoc([a[0]] + ra[0], ra[1..], Split(b));
      }
    }
  }

  /** A token the comprehension keeps: `tag.startswith('#')`. */
  predicate IsTag(token: string)
  {
    |token| > 0 && token[0] == '#'
  }

  /** The kept tokens, each without its first character, in order. */
  function Tags(tokens: seq<string>): seq<string>
    decreases |tokens|
  {
    if |tokens| == 0 then []
    else (if IsTag(tokens[0]) then [tokens[0][1..]] else []) + Tags(tokens[1..])
  }

  /** The hashtags of a caption, as the post projection derives them:
      `t` is one exactly when `'#' + t` is one of the caption's
      space-separated tokens. */
  function Hashtags(caption: string): (r: seq<string>)
    ensures forall t :: t in r <==> "#" + t in Split(caption)
    ensures |r| <= |Split(caption)|
  {
    TokenTagsMembers(Split(caption));
    TagsLength(Split(caption));
    Tags(Split(caption))
  }

  /** At most one tag per token. */
  lemma {:induction false} TagsLength(tokens: seq<string>)
    ensures |Tags(tokens)| <= |tokens|
    decreases |tokens|
  {
    if |tokens| > 0 {
      TagsLength(tokens[1..]);
    }
  }

  lemma {:induction false} TagsAppend(x: seq<string>, y: seq<string>)
    ensures Tags(x + y) == Tags(x) + Tags(y)
    decreases |x|
  {
    if |x| > 0 {
      assert (x + y)[1..] == x[1..] + y;
      TagsAppend(x[1..], y);
    } else {
      assert x + y == y;
    }
  }

  /** Hashtags keep caption order: the tags of two captions joined by a space
      are the tags of the first followed by the tags of the second. */
  lemma HashtagsOfJoin(a: string, b: string)
    ensures Hashtags(a + " " + b) == Hashtags(a) + Hashtags(b)
  {
    SplitAtSpace(a, b);
    TagsAppend(Split(a), Split(b));
  }

  /** A tag comes from exactly one kept token; every kept token gives one. */
  lemma {:induction false} TagsMembership(tokens: seq<string>, t: string)
    ensures t in Tags(tokens) <==> exists k :: 0 <= k < |tokens| && IsTag(tokens[k]) && tokens[k][1..] == t
    decreases |tokens|
  {
    if |tokens| > 0 {
      TagsMembership(tokens[1..], t);
      if exists k :: 0 <= k < |tokens[1..]| && IsTag(tokens[1..][k]) && tokens[1..][k][1..] == t {
        var k :| 0 <= k < |tokens[1..]| && IsTag(tokens[1..][k]) && tokens[1..][k][1..] == t;
        assert tokens[k + 1] == tokens[1..][k];
      }
      if exists k :: 0 <= k < |tokens| && IsTag(tokens[k]) && tokens[k][1..] == t {
        var k :| 0 <= k < |tokens| && IsTag(tokens[k]) && tokens[k][1..] == t;
        if k > 0 {
          assert tokens[1..][k - 1] == tokens[k];
        }
      }
    }
  }

  /** `t` is a kept tag exactly when `'#' + t` is one of the tokens. */
  lemma TokenTagsMembership(tokens: seq<string>, t: string)
    ensures t in Tags(tokens) <==> "#" + t in tokens
  {
    TagsMembership(tokens, t);
    if "#" + t in tokens {
      var k :| 0 <= k < |tokens| && tokens[k] == "#" + t;
      assert IsTag(tokens[k]) && tokens[k][1..] == t;
    }
    if t in Tags(tokens) {
      var k :| 0 <= k < |tokens| && IsTag(tokens[k]) && tokens[k][1..] == t;
      assert tokens[k] == "#" + t;
    }
  }

  /** `TokenTagsMembership` for every candidate tag at once. */
  lemma TokenTagsMembers(tokens: seq<string>)
    ensures forall t :: t in Tags(tokens) <==> "#" + t in tokens
  {
    forall t ensures t in Tags(tokens) <==> "#" + t in tokens {
      TokenTagsMembership(tokens, t);
    }
  }

  /** No token starting with `#` means no hashtags, and conversely. */
  lemma {:induction false} TagsEmpty(tokens: seq<string>)
    ensures Tags(tokens) == [] <==> forall k :: 0 <= k < |tokens| ==> !IsTag(tokens[k])
    decreases |tokens|
  {
    if |tokens| > 0 {
      TagsEmpty(tokens[1..]);
      if forall k :: 0 <= k < |tokens[1..]| ==> !IsTag(tokens[1..][k]) {
        forall k | 1 <= k < |tokens| ensures !IsTag(tokens[k]) {
          assert tokens[k] == tokens[1..][k - 1];
        }
      }
    }
  }

  /** Every character of every piece is a character of the split string. */
  lemma {:induction false} SplitChars(s: string)
    ensures forall k, i :: 0 <= k < |Split(s)| && 0 <= i < |Split(s)[k]| ==> Split(s)[k][i] in s
    decreases |s|
  {
    if |s| > 0 {
      SplitChars(s[1..]);
      var rest := Split(s[1..]);
      forall k, i | 0 <= k < |Split(s)| && 0 <= i < |Split(s)[k]| ensures Split(s)[k][i] in s {
        if s[0] == ' ' {
          assert k > 0 && Split(s)[k] == rest[k - 1];
          assert rest[k - 1][i] in s[1..];
        } else if k == 0 {
          if i > 0 {
            assert Split(s)[0][i] == rest[0][i - 1];
            assert rest[0][i - 1] in s[1..];
          }
        } else {
          assert Split(s)[k] == rest[k];
          assert rest[k][i] in s[1..];
        }
      }
    }
  }

  /** A caption without the character `#` (the empty caption among them) has
      no hashtags. */
  lemma NoHashNoHashtags(caption: string)
    requires '#' !in caption
    ensures Hashtags(caption) == []
  {
    var tokens := Split(caption);
    SplitChars(caption);
    forall k | 0 <= k < |tokens| ensures !IsTag(tokens[k]) {
      if |tokens[k]| > 0 {
        assert tokens[k][0] in caption;
      }
    }
    TagsEmpty(tokens);
  }

  /** A token without spaces splits to itself. */
  lemma SplitToken(t: string)
    requires ' ' !in t
    ensures Split(t) == [t]
  {
    SplitJoin([t]);
  }

  /** The hashtags of a single token. */
  lemma HashtagsOfToken(t: string)
    requires ' ' !in t
    ensures Hashtags(t) == if IsTag(t) then [t[1..]] else []
  {
    SplitToken(t);
    var tokens := [t];
    assert tokens[1..] == [];
    assert Tags(tokens[1..]) == [];
    assert Tags(tokens) == (if IsTag(t) then [t[1..]] else []) + Tags(tokens[1..]);
  }

  /** A caption that is a plain word followed by two marked words, such as
      `"gm #sunrise #day1"`, yields the two words, in caption order. */
  lemma HashtagsOfTaggedWords(g: string, w1: string, w2: string)
    requires ' ' !in g && ' ' !in w1 && ' ' !in w2 && !IsTag(g)
    ensures Hashtags(g + " " + ("#" + w1) + " " + ("#" + w2)) == [w1, w2]
  {
    var t1, t2 := "#" + w1, "#" + w2;
    assert ' ' !in t1 && ' ' !in t2;
    assert IsTag(t1) && t1[1..] == w1;
    assert IsTag(t2) && t2[1..] == w2;
    var front := g + " " + t1;
    HashtagsOfToken(g);
    HashtagsOfToken(t1);
    HashtagsOfToken(t2);
    HashtagsOfJoin(g, t1);
    assert Hashtags(front) == [w1];
    HashtagsOfJoin(front, t2);
    assert Hashtags(front + " " + t2) == [w1] + [w2];
  }

  /** The empty caption splits to `[""]` and has no hashtags. */
  lemma HashtagsOfEmptyCaption()
    ensures Split("") == [""]
    ensures Hashtags("") == []
  {
  }

  /** Worked captions at the edges: a doubled marker keeps one `#`, and a bare
      marker gives the empty tag. */
  lemma HashtagsMarkerExamples()
    ensures Hashtags("##x") == ["#x"]
    ensures Hashtags("#") == [""]
  {
    HashtagsOfToken("##x");
    HashtagsOfToken("#");
    assert "##x"[1..] == "#x";
  }
}

=== FILE: transport.dfy ===
/** The API as the extractors see it through `Connector.base_api`: a call
    names an endpoint and keyword arguments, and gets back a parsed JSON
    document. Here the documents come from a finite script, answered in
    order, and every call is recorded so that what was asked for can be
    stated alongside what came back. */
module Transport {
  import opened Wrappers
  import opened Json

  /** One keyword argument of `base_api`; it becomes one query parameter. */
  datatype Param = Param(name: string, value: Json)

  /** One call `base_api(endpoint, name0=value0, name1=value1, ...)`. */
  datatype Request = Request(endpoint: string, params: seq<Param>)

  /** What an extraction returned or raised, with every request it issued,
      in issue order. */
  datatype Run<+T> = Run(result: Result<T>, log: seq<Request>)

  /** The request carries a query parameter of that name. */
  predicate Sends(r: Request, name: string)
  {
    exists k :: 0 <= k < |r.params| && r.params[k].name == name
  }
}

=== FILE: user_info.dfy ===
/** `UserInfo`: the allow-listed profile, and the follower / following
    lists walked page by page through `next_max_id`. */
module UserInfo {
  import opened Wrappers
  import opened Json
  import opened Transport
  import opened Constants
  import opened Paging

  /** The one request of a profile lookup: `base_api("info", id_user=...)`. */
  function ProfileRequest(userId: Json): Request
  {
    Request(ProfileInfoEndpoint, [Param("id_user", userId)])
  }

  /** `data['user'][key]`. */
  function UserField(data: Json, key: string): (r: Result<Json>)
    ensures r == GetPath(data, ["user", key])
  {
    var user :- Get(data, "user");
    assert ["user", key][1..] == [key] && [key][1..] == [];
    assert GetPath(data, ["user", key]) == GetPath(user, [key]);
    match Get(user, key)
    case Err(e) => Err(e)
    case Ok(v) =>
      assert GetPath(user, [key]) == GetPath(v, []);
      Ok(v)
  }

  /** `{key: data['user'][key] for key in fields}`: the lookups happen in list
      order and the first missing one raises. */
  function ProjectFields(data: Json, fields: seq<string>): (r: Result<map<string, Json>>)
    ensures r.Ok? <==> forall k :: 0 <= k < |fields| ==> UserField(data, fields[k]).Ok?
    ensures r.Ok? ==> forall key :: key in r.value <==> key in fields
    ensures r.Ok? ==> forall k :: 0 <= k < |fields| ==> Ok(r.value[fields[k]]) == UserField(data, fields[k])
    ensures r.Err? ==> exists k :: 0 <= k < |fields| && UserField(data, fields[k]) == Err(r.error)
    decreases |fields|
  {
    if |fields| == 0 then Ok(map[])
    else
      match UserField(data, fields[0])
      case Err(e) => Err(e)
      case Ok(v) =>
        match ProjectFields(data, fields[1..])
        case Err(e) =>
          ProjectFieldsShift(data, fields, e);
          Err(e)
        case Ok(rest) =>
          var r := map[fields[0] := v] + rest;
          assert forall k :: 1 <= k < |fields| ==> fields[k] == fields[1..][k - 1];
          assert forall key :: key in fields[1..] ==> key in fields;
          assert forall key :: key in fields ==> key == fields[0] || key in fields[1..];
          Ok(r)
  }

  lemma ProjectFieldsShift(data: Json, fields: seq<string>, e: Error)
    requires |fields| > 0
    requires exists k :: 0 <= k < |fields[1..]| && UserField(data, fields[1..][k]) == Err(e)
    ensures exists k :: 0 <= k < |fields| && UserField(data, fields[k]) == Err(e)
  {
    var k :| 0 <= k < |fields[1..]| && UserField(data, fields[1..][k]) == Err(e);
    assert fields[1..][k] == fields[k + 1];
  }

  /** `UserInfo.extract_user_profile`: one `info` request; the profile has
      exactly the seven allow-listed keys, each copied from `data['user']`,
      and any missing field is an error. */
  function ExtractUserProfile(userId: Json, script: seq<Json>): (r: Run<map<string, Json>>)
    ensures r.log == [Request("info", [Param("id_user", userId)])]
    ensures r.result.Ok? <==>
      (|script| > 0 && forall f :: f in UserExtractFields ==> UserField(script[0], f).Ok?)
    ensures r.result.Ok? ==>
      r.result.value.Keys == {"username", "following_count", "follower_count", "is_private",
                              "is_verified", "profile_pic_url", "media_count"}
    ensures r.result.Ok? ==>
      forall f :: f in UserExtractFields ==> Ok(r.result.value[f]) == UserField(script[0], f)
  {
    if |script| == 0 then Run(Err(OutOfScript), [ProfileRequest(userId)])
    else
      AllowListProjection(script[0]);
      Run(ProjectFields(script[0], UserExtractFields), [ProfileRequest(userId)])
  }

  /** `ProjectFields` over the allow-list, stated per field name. */
  lemma AllowListProjection(data: Json)
    ensures var r := ProjectFields(data, UserExtractFields);
      && (r.Ok? <==> forall f :: f in UserExtractFields ==> UserField(data, f).Ok?)
      && (r.Ok? ==>
            r.value.Keys == {"username", "following_count", "follower_count", "is_private",
                             "is_verified", "profile_pic_url", "media_count"})
      && (r.Ok? ==> forall f :: f in UserExtractFields ==> Ok(r.value[f]) == UserField(data, f))
  {
    var r := ProjectFields(data, UserExtractFields);
    ProjectFieldsByName(data, UserExtractFields);
    if r.Ok? {
      AllowListKeys(r.value);
    }
  }

  /** The contract of `ProjectFields`, by field name instead of by position. */
  lemma ProjectFieldsByName(data: Json, fields: seq<string>)
    ensures var r := ProjectFields(data, fields);
      && (r.Ok? <==> forall f :: f in fields ==> UserField(data, f).Ok?)
      && (r.Ok? ==> forall f :: f in fields ==> f in r.value && Ok(r.value[f]) == UserField(data, f))
  {
    var r := ProjectFields(data, fields);
    if r.Err? {
      var k :| 0 <= k < |fields| && UserField(data, fields[k]) == Err(r.error);
      assert fields[k] in fields;
    }
  }

  /** A map keyed by exactly the allow-listed fields has the seven names as keys. */
  lemma AllowListKeys(m: map<string, Json>)
    requires forall key :: key in m <==> key in UserExtractFields
    ensures m.Keys == {"username", "following_count", "follower_count", "is_private",
                       "is_verified", "profile_pic_url", "media_count"}
  {
    var fs := UserExtractFields;
    assert fs == ["username", "following_count", "follower_count", "is_private",
                  "is_verified", "profile_pic_url", "media_count"];
  }

  /** `__helper_user_list`: the `id_user` request, with `next_max_id` added
      exactly when the cursor is not the empty string. */
  function UserListRequest(endpoint: string, userId: Json, cursor: Json): (r: Request)
    ensures r.endpoint == endpoint
    ensures Sends(r, "next_max_id") <==> cursor != JStr("")
    ensures r.params == if Sends(r, "next_max_id")
      then [Param("id_user", userId), Param("next_max_id", cursor)]
      else [Param("id_user", userId)]
  {
    if cursor == JStr("") then Request(endpoint, [Param("id_user", userId)])
    else
      var r := Request(endpoint, [Param("id_user", userId), Param("next_max_id", cursor)]);
      assert r.params[1].name == "next_max_id";
      r
  }

  /** A generator `(user['pk'] for user in source)` that has not been
      consumed yet. */
  datatype PkGenerator = PkGenerator(source: Json)

  /** `(user['pk'] for user in response['users'])` as built for one page:
      only `response['users']` and `iter()` of it are evaluated now; the
      `pk` lookups wait until the generator is consumed. */
  function PageGenerator(page: Json): Result<PkGenerator>
  {
    var users :- Get(page, "users");
    if Iterable(users) then Ok(PkGenerator(users)) else Err(TypeError)
  }

  /** `list(g)`: the `pk` of every user the generator visits, in order; the
      first user without one raises. */
  function Drain(g: PkGenerator): Result<seq<Json>>
  {
    var records :- Records(g.source);
    Pluck(records, ["pk"])
  }

  /** `response['next_max_id']` with `except KeyError: break`: a missing key
      ends the loop; any other exception propagates. */
  function MaxIdCursor(page: Json): (r: Result<Option<Json>>)
    ensures r.Ok? && r.value.Some? <==> Get(page, "next_max_id").Ok?
    ensures r.Ok? && r.value.Some? ==> r.value.value == Get(page, "next_max_id").value
    ensures r == Ok(None) <==> Get(page, "next_max_id") == Err(KeyError)
  {
    match Get(page, "next_max_id")
    case Ok(c) => Ok(Some(c))
    case Err(KeyError) => Ok(None)
    case Err(e) => Err(e)
  }

  function UserListPager(endpoint: string, userId: Json): Pager<PkGenerator>
  {
    Pager(PageGenerator, MaxIdCursor, c => UserListRequest(endpoint, userId, c))
  }

  /** `__user_list_from_api_call`. The first request carries no
      `next_max_id`; request `k` carries the `next_max_id` of response `k-1`
      (dropped again when that cursor is `""`, which re-requests the first
      page); the loop stops at the first response without `next_max_id`; and
      the result holds one unconsumed pk generator per fetched page, in page
      order, neither flattened nor de-duplicated. */
  function UserList(endpoint: string, userId: Json, script: seq<Json>): (r: Run<seq<PkGenerator>>)
    ensures 1 <= |r.log| <= |script| + 1
    ensures r.log[0] == Request(endpoint, [Param("id_user", userId)])
    ensures forall k :: 1 <= k < |r.log| ==>
      PageGenerator(script[k - 1]).Ok? && Get(script[k - 1], "next_max_id").Ok? &&
      r.log[k] == UserListRequest(endpoint, userId, Get(script[k - 1], "next_max_id").value)
    ensures r.result.Ok? ==> |r.log| <= |script| && Get(script[|r.log| - 1], "next_max_id") == Err(KeyError)
    ensures r.result.Ok? ==> |r.result.value| == |r.log|
    ensures r.result.Ok? ==> forall k :: 0 <= k < |r.log| ==> PageGenerator(script[k]) == Ok(r.result.value[k])
    ensures r.result.Err? && |r.log| <= |script| ==>
      Fails(UserListPager(endpoint, userId), script[|r.log| - 1], r.result.error)
    ensures |r.log| == |script| + 1 ==> r.result == Err(OutOfScript)
  {
    var p := UserListPager(endpoint, userId);
    Paginate(p, UserListRequest(endpoint, userId, JStr("")), script)
  }

  /** `extract_followers`: every request goes to `followers`, and the first
      carries only the user id. */
  function ExtractFollowers(userId: Json, script: seq<Json>): (r: Run<seq<PkGenerator>>)
    ensures |r.log| >= 1 && r.log[0] == Request("followers", [Param("id_user", userId)])
    ensures forall k :: 0 <= k < |r.log| ==> r.log[k].endpoint == "followers"
  {
    UserList(FollowersEndpoint, userId, script)
  }

  /** `extract_following`: every request goes to `following`, and the first
      carries only the user id. */
  function ExtractFollowing(userId: Json, script: seq<Json>): (r: Run<seq<PkGenerator>>)
    ensures |r.log| >= 1 && r.log[0] == Request("following", [Param("id_user", userId)])
    ensures forall k :: 0 <= k < |r.log| ==> r.log[k].endpoint == "following"
  {
    UserList(FollowingEndpoint, userId, script)
  }

  /** The same request sent to another endpoint. */
  function Retarget(endpoint: string): Request -> Request
  {
    (req: Request) => Request(endpoint, req.params)
  }

  /** Followers and following run the identical loop: against the same
      responses they give the same result, and their requests differ only
      in the endpoint name. */
  lemma FollowingMirrorsFollowers(userId: Json, script: seq<Json>)
    ensures ExtractFollowing(userId, script).result == ExtractFollowers(userId, script).result
    ensures |ExtractFollowing(userId, script).log| == |ExtractFollowers(userId, script).log|
    ensures forall k :: 0 <= k < |ExtractFollowers(userId, script).log| ==>
      ExtractFollowing(userId, script).log[k] ==
      Request(FollowingEndpoint, ExtractFollowers(userId, script).log[k].params)
  {
    var p := UserListPager(FollowersEndpoint, userId);
    var q := UserListPager(FollowingEndpoint, userId);
    var f := Retarget(FollowingEndpoint);
    var first := UserListRequest(FollowersEndpoint, userId, JStr(""));
    assert f(first) == UserListRequest(FollowingEndpoint, userId, JStr(""));
    PaginateRewritten(p, q, f, first, script);
  }

  /** Three follower pages of which only the first two carry `next_max_id`. */
  function ThreePageScript(a: seq<Json>, b: seq<Json>, c: seq<Json>, c1: Json, c2: Json): seq<Json>
  {
    [JObj(map["users" := JArr(a), "next_max_id" := c1]),
     JObj(map["users" := JArr(b), "next_max_id" := c2]),
     JObj(map["users" := JArr(c)])]
  }

  /** Every user record of a page has a `pk`. */
  ghost predicate AllHavePk(users: seq<Json>)
  {
    forall k :: 0 <= k < |users| ==> GetPath(users[k], ["pk"]).Ok?
  }

  /** The three-page followers scenario: three requests, the later two with
      the cursors of the pages before them, and one generator per page,
      which drain to as many ids as the pages have users (100 + 100 + 37
      users give 237 ids, in three groups). */
  lemma ThreePages(userId: Json, a: seq<Json>, b: seq<Json>, c: seq<Json>, c1: Json, c2: Json)
    requires c1 != JStr("") && c2 != JStr("")
    requires AllHavePk(a) && AllHavePk(b) && AllHavePk(c)
    ensures var r := ExtractFollowers(userId, ThreePageScript(a, b, c, c1, c2));
      && r.log == [Request("followers", [Param("id_user", userId)]),
                   Request("followers", [Param("id_user", userId), Param("next_max_id", c1)]),
                   Request("followers", [Param("id_user", userId), Param("next_max_id", c2)])]
      && r.result.Ok?
      && |r.result.value| == 3
      && Drain(r.result.value[0]).Ok? && |Drain(r.result.value[0]).value| == |a|
      && Drain(r.result.value[1]).Ok? && |Drain(r.result.value[1]).value| == |b|
      && Drain(r.result.value[2]).Ok? && |Drain(r.result.value[2]).value| == |c|
  {
    var script := ThreePageScript(a, b, c, c1, c2);
    var p := UserListPager(FollowersEndpoint, userId);
    var first := UserListRequest(FollowersEndpoint, userId, JStr(""));
    var p0, p1, p2 := script[0], script[1], script[2];
    assert Get(p0, "users") == Ok(JArr(a)) && Get(p0, "next_max_id") == Ok(c1);
    assert Get(p1, "users") == Ok(JArr(b)) && Get(p1, "next_max_id") == Ok(c2);
    assert Get(p2, "users") == Ok(JArr(c)) && Get(p2, "next_max_id") == Err(KeyError);
    assert PageGenerator(p0) == Ok(PkGenerator(JArr(a)));
    assert PageGenerator(p1) == Ok(PkGenerator(JArr(b)));
    assert PageGenerator(p2) == Ok(PkGenerator(JArr(c)));
    assert Continues(p, p0) && Continues(p, p1) && Ends(p, p2);
    CursorRunIs(p, script, 2);
    RequestCount(p, first, script);
    SucceedsIff(p, first, script);
  }

  /** The `pk` lookups are deferred: a last page whose users lack `pk`
      still ends the walk successfully, and only consuming its generator
      raises the `KeyError`. */
  lemma PkLookupIsDeferred(userId: Json, u: Json)
    requires u.JObj? && "pk" !in u.m
    ensures var r := ExtractFollowers(userId, [JObj(map["users" := JArr([u])])]);
      && r.result.Ok?
      && |r.result.value| == 1
      && Drain(r.result.value[0]) == Err(KeyError)
  {
    var page := JObj(map["users" := JArr([u])]);
    var p := UserListPager(FollowersEndpoint, userId);
    var first := UserListRequest(FollowersEndpoint, userId, JStr(""));
    assert Get(page, "next_max_id") == Err(KeyError);
    assert PageGenerator(page) == Ok(PkGenerator(JArr([u])));
    assert Ends(p, page);
    CursorRunIs(p, [page], 0);
    RequestCount(p, first, [page]);
    SucceedsIff(p, first, [page]);
    assert GetPath(u, ["pk"]) == Err(KeyError);
  }
}

=== FILE: wrappers.dfy ===
/** Outcome types shared by every extractor: an optional value, and a result
    that carries either a value or the Python exception the original code
    would raise at that point. */
module Wrappers {

  datatype Option<+T> = None | Some(value: T)

  /** The exceptions the extractors can raise. Only their kind is kept: the
      source has four `except KeyError` handlers (in three methods) and lets
      every other kind propagate, so the kind is observable but the message is not. */
  datatype Error =
    | KeyError        // a dict lookup of a missing key (also an int key on a dict)
    | IndexError      // a list or string index past the end
    | TypeError       // subscripting, measuring or iterating a value of the wrong shape
    | AttributeError  // calling a string method on a value that is not a string
    | OutOfScript     // a request the scripted API has no response left for

  /** A value, or the exception that stopped the computation. Usable with `:-`. */
  datatype Result<+T> = Ok(value: T) | Err(error: Error) {

    predicate IsFailure() {
      Err?
    }

    function PropagateFailure<U>(): Result<U>
      requires Err?
    {
      Err(error)
    }

    function Extract(): T
      requires Ok?
    {
      value
    }
  }
}
